=== FILE: README.md ===
# AssignmentGrading core in Dafny

AssignmentGrading is a small Flask application. It lets a teacher upload a
scanned answer, extract its text, and have a generative model grade it
against a fixed rubric. Almost all of it is I/O. This project models the four
pieces of logic that are not, and proves properties of them:

- **Text normalisation** (`clean_text`, module `TextClean`). Every run of
  whitespace becomes one space. The line-break substitution that follows
  then has nothing left to match. The result is stripped at both ends.
  Whitespace is Python's `\s` / `str.isspace` set on `str` values.
- **Upload filter** (`allowed_file` and `ALLOWED_EXTENSIONS`, module
  `Uploads`). A name is accepted when it has a dot and the text after its
  last dot, lower-cased, is `pdf`, `png`, `jpg` or `jpeg`.
- **Bounded retry loop** of the grade branch (module `Retry`). The model is
  called at most three times. An empty or missing answer counts as a failure.
  The first non-empty answer ends the loop, and after three failures the
  third failure's exception is re-raised. The model is an oracle: a sequence
  giving the outcome each successive call would have.
- **Rubric validation, scaling and totalling** (module `Rubric`). The
  decoded response must be a dict holding the five section keys. A section
  that is not a dict becomes zero marks with the default feedback. Each
  section's 0-10 marks are multiplied by `max_marks / 10` and capped at 40%
  of `max_marks` (introduction, main body) or 20% (conclusion, examples,
  diagrams). The total is the sum of the sections capped at `max_marks`. The
  AI-detection score defaults to 0.
- Module `Grading` joins them: the retry loop, `json.loads` on the whole
  answer, then the rubric.

Supporting modules are `Outcomes` (`Result`, `Option`) and `Json` (decoded
JSON values and the `float`/`str` built-ins applied to them).

## Behaviour as coded

What the grade branch does, read from the code:

- `max_marks / 10` is computed before the model is called. It raises
  OverflowError, so no call is made, when the quotient is beyond the double
  range: `max_marks` of magnitude at least 10 × (2^1024 - 2^970).
- The whole answer is given to `json.loads`. Only its `JSONDecodeError` is
  replaced by the invalid-format error (utils.py:151). Any other exception it
  raises, such as RecursionError on very deep nesting, passes through
  unchanged.
- `max_marks * 0.4` (utils.py:130) converts `max_marks` to a float. From a
  magnitude of 2^1024 - 2^970 this raises OverflowError at the first section,
  after the key check and before any marks are read.
- Raw marks are used as `float` returns them, so a negative mark gives
  negative scaled marks and lowers the total.
- Examples and diagrams are always capped at 20% of `max_marks`, although
  the prompt (utils.py:82-84) asks the model for at most 1 mark of 10 for
  voluntary examples or diagrams.
- The total is the sum of all five sections, capped at `max_marks`.
- Decoding and shape failures happen after the retry loop and are never
  retried.
- Marks that `float` cannot convert make the whole call fail. That includes
  an integer whose magnitude reaches 2^1024 - 2^970, where `float` raises
  OverflowError. So does a detection score `float` cannot convert.
- The `[\r\n]+` substitution of `clean_text` (utils.py:16) is dead: the
  `\s+` substitution before it has already turned every line break into a
  space. So the cleaned text never contains a line break.
- A top-level list or string that mentions all five names passes the
  `field in raw_result` check (element or substring test). It then fails with
  a TypeError at `raw_result[section]`. Any other non-dict value fails at
  the `in` test.
- `max_marks` is an integer, because the route converts it with `int(...)`
  (app.py:73). The marks are reals.

## Model

| member | source | states |
|---|---|---|
| TextClean.CleanText | utils.py:11-17 | the result has no whitespace at either end, every whitespace character left is a plain space, no two whitespace characters are adjacent, and it has the same words and the same non-whitespace characters as the input |
| TextClean.CleanTextIsJoinOfWords | utils.py:11-17 | the cleaned text is exactly the input's maximal non-whitespace runs joined by single spaces, so each whitespace run between words becomes one space and the outer ones vanish |
| TextClean.CleanTextIdempotent | utils.py:11-17 | cleaning a cleaned text changes nothing |
| TextClean.CleanTextKeepsChars | utils.py:11-17 | the non-whitespace characters of the input survive, in their original order, and nothing else is added |
| TextClean.LineBreakStepIsNoOp | utils.py:14-16 | the `[\r\n]+` substitution leaves the output of the `\s+` substitution unchanged |
| TextClean.SqueezeOutput | utils.py:14 | after `re.sub` every character is the replacement or lies outside the class, and the text starts with the replacement exactly when it started inside the class |
| TextClean.SqueezeLeavesNoRun | utils.py:14 | after `re.sub('\s+', ' ')` no two whitespace characters stand side by side |
| TextClean.SqueezeAbsent | utils.py:16 | a substitution whose class does not occur in the text is the identity |
| TextClean.TrimEnd | utils.py:17 | the right half of `strip`: the result is a prefix of the input that is empty or ends in non-whitespace, and everything cut off is whitespace |
| TextClean.TrimEndAppend | utils.py:17 | right-stripping a concatenation strips the right part first and touches the left part only when the right part is all whitespace |
| TextClean.WordsOfJoin | utils.py:14-17 | splitting the single-space join of words gives the same words back |
| TextClean.JoinIsClean | utils.py:14-17 | the single-space join of words has no outer whitespace and no adjacent whitespace |
| TextClean.CleanIsJoinOfItsWords | utils.py:14-17 | a clean text is the single-space join of its own words |
| TextClean.KeptCharsCollapse | utils.py:14 | the whitespace substitution keeps every non-whitespace character in order |
| TextClean.Squeeze | utils.py:14-16 | `re.sub` of a one-class pattern with `+`: each maximal run of the class becomes one replacement character; what that leaves is stated by SqueezeOutput, SqueezeLeavesNoRun, SqueezeAbsent and KeptCharsCollapse |
| TextClean.Strip | utils.py:17 | `str.strip()`: the result is a contiguous piece of the input with only whitespace before and after it, and it is empty or starts and ends with non-whitespace |
| Uploads.LastDot | app.py:34 | there is no index exactly when the name has no dot; otherwise the index holds a dot and no dot follows it |
| Uploads.Extension | app.py:34 | `rsplit('.', 1)[1]`: a dot-free suffix of the name that directly follows a dot |
| Uploads.AllowedFile | app.py:33-34 | `allowed_file`: a dot, and the lower-cased text after the last dot in `ALLOWED_EXTENSIONS`; AllowedFileIff gives its independent characterisation |
| Uploads.AllowedFileIff | app.py:33-34 | a name is accepted exactly when some dot with no later dot is followed by text that lower-cases to an allowed extension; a name without a dot is rejected |
| Uploads.ExtensionDecides | app.py:31-34 | for a dot-free extension, `stem.ext` is accepted exactly when the lower-cased extension is in `ALLOWED_EXTENSIONS`, whatever the stem holds |
| Uploads.AllowedFileIgnoresCase | app.py:34 | lower-casing the extension never changes the verdict |
| Uploads.UpperCaseAccepted | app.py:31-34 | `x.PNG` is accepted |
| Uploads.MixedCaseAccepted | app.py:31-34 | `scan.JpEg` is accepted |
| Uploads.InnerDotAccepted | app.py:31-34 | `a.tar.jpg` is accepted: only the last extension is read |
| Uploads.RejectedExamples | app.py:31-34 | `a.png.exe`, `file.`, `png` and the empty name are rejected |
| Retry.FirstSuccess | utils.py:100-107 | reference for the loop: the position of the first successful outcome among the first n, with every earlier one failed, or none when all n fail |
| Retry.FetchResponse | utils.py:96-113 | at most three calls; the calls before the last all failed; a first success at attempt k+1 makes exactly k+1 calls and yields that text; three failures make three calls and raise the third one's exception |
| Rubric.Contains | utils.py:121 | `field in raw_result`: key membership for a dict, element test for a list, substring test for a string, TypeError for anything else |
| Rubric.RequireFields | utils.py:117-122 | succeeds exactly on a dict holding all five section keys; a dict missing one fails the key check; a number, boolean or null fails with a TypeError |
| Rubric.Repaired | utils.py:127-128 | a section that is not a dict is replaced by zero marks and the default feedback; a dict is kept |
| Json.ToFloat | utils.py:132 | `float`: an int converts unless out of the double range, a float to itself, a bool to 1 or 0, a string through the parameter, anything else raises |
| Rubric.CappedMarks | utils.py:130-132 | a section's marks never exceed its cap; they are the scaled raw marks when those are within the cap and the cap otherwise |
| Rubric.ScaleSection | utils.py:126-134 | one pass fails exactly when `max_marks` is out of the double range (the overflow error) or the section's marks do not convert (the error naming that section); otherwise the marks are the capped scaled raw marks (0 for a non-dict section or a missing `marks`) and the feedback is the section's own or the default |
| Rubric.ScaleEach | utils.py:126-134 | the section loop: on success one scaled section per required section |
| Rubric.ScaleEachOk | utils.py:126-134 | the section loop succeeds exactly when every section's pass succeeds, and then holds each pass's result in order |
| Rubric.ScaleEachFirstError | utils.py:126-134 | a failed section loop reports the failure of the first failing section; every section before it passes |
| Rubric.ScaleRubric | utils.py:115-149 | the total never exceeds `max_marks` or the sum of the sections, and equals the sum unless it is cut to `max_marks`; success implies all five keys; a dict without them and a non-container fail with the matching error |
| Rubric.ScaledSection | utils.py:126-134 | every section of a grade is its raw marks times `max_marks / 10` capped at its share, with its feedback, and never above its cap |
| Rubric.DetectionScoreRead | utils.py:147 | the detection score is `float` of the response's value, 0 when absent |
| Rubric.ScaleRubricSucceedsIff | utils.py:115-149 | the grade branch succeeds exactly when `max_marks` converts to a float and the response is a dict with all five keys whose marks and detection score all convert |
| Rubric.FirstBadSectionReported | utils.py:126-132 | when the error is a marks error, it names the first section in `required_fields` order whose marks do not convert, and every earlier section's marks convert |
| Rubric.BaseSectionsWithinMax | utils.py:130-139 | in exact arithmetic, whatever the sign of `max_marks`, introduction, main body and conclusion together never exceed `max_marks` |
| Rubric.UnconvertibleMarksFail | utils.py:126-132 | marks `float` cannot convert (a rejected string, `None`, a list, a dict, an int out of the double range) make grading fail: with the marks error naming that section or an earlier one, or with the overflow error when `max_marks` is out of range |
| Rubric.LoopStopsAtFirstSection | utils.py:126-130 | with `max_marks` out of the double range the section loop fails with the overflow error at its first section |
| Rubric.MaxMarksOverflowFails | utils.py:121-130 | a response that passes the key check fails with the overflow error when `max_marks` is out of the double range, whatever its sections hold |
| Rubric.DetectionScoreFailureReported | utils.py:126-147 | when every section converts but the detection score does not, grading fails with the detection-score error |
| Rubric.LoopStopsBySection | utils.py:126-132 | a section whose marks do not convert stops the section loop with a marks error at that section or an earlier one |
| Rubric.NonDictSectionRepaired | utils.py:127-133 | a section that is not a dict scores the capped scaling of 0 (0 for non-negative `max_marks`) with the default feedback |
| Rubric.ScoreWellFormedSections | utils.py:126-147 | a dict of five section dicts with numeric marks is graded section by section from those marks and its detection score |
| Rubric.WorkedExample | utils.py:126-147 | raw 8, 9, 7, 0, 0 on a 10-mark question grade to 4, 4, 2, 0, 0 with total 10 |
| Rubric.BonusStopsAtMaxMarks | utils.py:130-144 | full raw marks on a 20-mark question give 8, 8, 4, 4, 4 and the total is cut from 28 to 20 |
| Rubric.NegativeMarksPassThrough | utils.py:132-144 | a raw mark of -5 is not clamped: it scales to -5 and the total is -5 |
| Rubric.NonDictResponses | utils.py:121-127 | a list of the five names passes the key check and fails on subscription; a string without them fails the key check |
| Grading.GradeText | utils.py:115-153 | a `JSONDecodeError` gives the invalid-format error and any other `json.loads` exception passes through by name; grading succeeds exactly when the answer decodes to a rubric that is scorable with this `max_marks`; the total never exceeds `max_marks` |
| Grading.AnalyzeGrade | utils.py:62-153 | a `max_marks / 10` that overflows raises before any call; otherwise at most three calls are made, and no success within them re-raises the third failure; otherwise exactly the calls up to the first success are made and the result is that answer's grade, or its grading error (a decode failure is not retried); the call succeeds exactly when the answer decodes to a scorable rubric |

## Left out

- Calling the model (`GenerativeModel`, `generate_content`) and building the prompts. These are network calls, so the retry loop reads their outcomes from an oracle sequence.
- Retry.FetchResponse: requires an oracle with at least three outcomes, one for every call the loop may make.
- `json.loads` is a parameter `decode` that returns the decoded value, or the exception it raises: `JSONDecodeError` or another one by name.
- `float` on a string and `str` on a non-string value are parameters (`Conversions`). The model fixes no text format for them.
- Rubric.ScaleSection: marks are exact reals, so float rounding, NaN and infinities are not modelled. `float` of a decoded float is that float, and `float` of an int is the int exactly when it is in range; only the overflow bound of the int conversion is kept.
- Json.Float: a decoded float is an exact real, so `str` of it cannot be Python's shortest round-trip text, and `Infinity`/`NaN` literals are not modelled.
- Uploads.Lower: lower-cases ASCII letters only. The allowed extensions are ASCII, and Python's `str.lower` maps no other character onto one of their letters. The two differ only on other letters, which cannot make an extension allowed.
- Image and PDF text extraction (utils.py:19-60). These are library I/O; the PDF function returns a constant message.
- Review mode (utils.py:155-173), which returns the model's text or a default string.
- The outer `except` that logs and re-raises (utils.py:175-177); the model returns the error instead.
- The Flask routes, upload saving, `secure_filename`, flashing, form parsing, the database schema (models.py) and the commit. These are web and storage plumbing.
- Logging throughout.

=== FILE: grading.dfy ===
/** `analyze_with_gemini` in grade mode (utils.py): the retry loop fetches the
    model's text, the whole text is decoded as JSON, and the rubric is
    scored. Decoding and shape failures happen after the loop and are never
    retried. */
module Grading {
  import opened Outcomes
  import opened Json
  import opened Retry
  import opened Rubric

  /** What `analyze_with_gemini` raises in grade mode. */
  datatype AnalysisError =
    | ScalingOverflow                  // OverflowError: max_marks / 10, before any call
    | FetchFailed(fetch: FetchError)   // re-raised by the retry loop
    | GradingFailed(grade: GradeError) // raised after the loop

  /** The part after the loop: `json.loads` on the whole text (there is no
      search for an embedded object), then the rubric. `decode` is
      `json.loads`. Only its `JSONDecodeError` is caught and replaced by the
      invalid-format error; any other exception it raises passes through. */
  function GradeText(text: string, maxMarks: int, decode: string -> Result<Json, LoadsError>, conv: Conversions)
    : (r: Result<Grade, GradeError>)
    ensures decode(text) == Err(DecodeError) ==> r == Err(InvalidResponseFormat)
    ensures decode(text).Err? && decode(text).error.OtherError? ==>
      r == Err(LoadsRaised(decode(text).error.exception))
    ensures r.Ok? <==> decode(text).Ok? && Scorable(decode(text).value, maxMarks, conv)
    ensures r.Ok? ==> r.value.totalMarks <= maxMarks as real
  {
    match decode(text)
    case Err(DecodeError) => Err(InvalidResponseFormat)
    case Err(OtherError(e)) => Err(LoadsRaised(e))
    case Ok(raw) =>
      ScaleRubricSucceedsIff(raw, maxMarks, conv);
      ScaleRubric(raw, maxMarks, conv)
  }

  /** A grading failure after the loop is raised as it is; a grade is
      returned as it is. */
  function AfterLoop(g: Result<Grade, GradeError>): Result<Grade, AnalysisError> {
    match g
    case Ok(grade) => Ok(grade)
    case Err(e) => Err(GradingFailed(e))
  }

  /** Grade mode end to end. `oracle[i]` is what the `i`-th call of the model
      would do and `calls` counts the calls made. `max_marks / 10` is
      computed first and may raise before any call. Then the model is called
      until its first non-empty answer, at most three times; that answer
      alone is graded, whether or not it decodes. */
  method AnalyzeGrade(oracle: seq<CallOutcome>, maxMarks: int, decode: string -> Result<Json, LoadsError>, conv: Conversions)
    returns (r: Result<Grade, AnalysisError>, calls: nat)
    requires |oracle| >= MaxRetries
    ensures calls <= MaxRetries
    ensures !ScalingFits(maxMarks) ==> calls == 0 && r == Err(ScalingOverflow)
    ensures ScalingFits(maxMarks) ==> 1 <= calls
    ensures ScalingFits(maxMarks) && FirstSuccess(oracle, MaxRetries).None? ==>
      calls == MaxRetries && r == Err(FetchFailed(AttemptError(oracle[MaxRetries - 1])))
    ensures ScalingFits(maxMarks) && FirstSuccess(oracle, MaxRetries).Some? ==>
      var k := FirstSuccess(oracle, MaxRetries).value;
      && calls == k + 1
      && (decode(oracle[k].text) == Err(DecodeError) ==> r == Err(GradingFailed(InvalidResponseFormat)))
      && (r.Ok? <==> decode(oracle[k].text).Ok? && Scorable(decode(oracle[k].text).value, maxMarks, conv))
      && r == AfterLoop(GradeText(oracle[k].text, maxMarks, decode, conv))
    ensures r.Ok? ==> r.value.totalMarks <= maxMarks as real
  {
    if !ScalingFits(maxMarks) {
      return Err(ScalingOverflow), 0;
    }
    var fetched;
    fetched, calls := FetchResponse(oracle);
    match fetched
    case Err(e) =>
      r := Err(FetchFailed(e));
    case Ok(text) =>
      match GradeText(text, maxMarks, decode, conv)
      case Err(e) =>
        r := Err(GradingFailed(e));
      case Ok(g) =>
        r := Ok(g);
  }
}

=== FILE: json.dfy ===
/** The values `json.loads` produces, and the two Python built-ins the grade
    branch applies to them (`float(...)` and `str(...)`). */
module Json {
  import opened Outcomes

  /** A decoded JSON value: None, bool, int, float, str, list or dict.
      `json.loads` makes an int of a literal without a fraction or an
      exponent and a float of any other number; a float is an exact real
      here. */
  datatype Json =
    | Null
    | Bool(b: bool)
    | Int(i: int)
    | Float(f: real)
    | Str(s: string)
    | Array(items: seq<Json>)
    | Object(fields: map<string, Json>)

  /** What `json.loads` raises: `JSONDecodeError` on text that is not JSON,
      or another exception it lets through (RecursionError on very deep
      nesting, ValueError on an integer literal over the interpreter's digit
      limit), named by `exception`. */
  datatype LoadsError =
    | DecodeError
    | OtherError(exception: string)

  /** The parts of Python's `float` and `str` that read or render text:
      `readFloat` is `float` on a string (None where it raises) and
      `render` is `str` on a value that is not a string (which tells
      `str(7)` from `str(7.0)`, as the two are different values). */
  datatype Conversions = Conversions(readFloat: string -> Option<real>, render: Json -> string)

  /** 2^1024 - 2^970, half a unit in the last place above the largest
      double. `float` of an int rounds to nearest, ties to even, and raises
      OverflowError when the rounded value is not finite, which happens
      exactly when the int's magnitude reaches this bound. */
  const FloatOverflow: int := 0xFFFF_FFFF_FFFF_FC00_0000_0000_0000_0000_0000_0000_0000_0000_0000_0000_0000_0000_0000_0000_0000_0000_0000_0000_0000_0000_0000_0000_0000_0000_0000_0000_0000_0000_0000_0000_0000_0000_0000_0000_0000_0000_0000_0000_0000_0000_0000_0000_0000_0000_0000_0000_0000_0000_0000_0000_0000_0000_0000_0000_0000_0000_0000_0000_0000_0000

  /** Whether `float(i)` returns rather than raising OverflowError. */
  predicate IntFitsFloat(i: int) {
    -FloatOverflow < i < FloatOverflow
  }

  /** `float(v)`: an int converts unless it is out of the double range,
      a float converts to itself, `True`/`False` to 1 and 0, strings are
      read; `None`, lists and dicts make it raise. */
  function ToFloat(v: Json, conv: Conversions): Option<real> {
    match v
    case Int(i) => if IntFitsFloat(i) then Some(i as real) else None
    case Float(f) => Some(f)
    case Bool(b) => Some(if b then 1.0 else 0.0)
    case Str(s) => conv.readFloat(s)
    case _ => None
  }

  /** `str(v)`: a string is returned as it is. */
  function ToStr(v: Json, conv: Conversions): string {
    if v.Str? then v.s else conv.render(v)
  }

  /** `v.get(key, default)` on a dict. */
  function GetOr(fields: map<string, Json>, key: string, default: Json): Json {
    if key in fields then fields[key] else default
  }
}

=== FILE: outcomes.dfy ===
/** Success/failure values standing in for Python's exceptions: an operation
    that raises is modelled as one that returns `Err`. */
module Outcomes {

  /** Either the value an operation produced or the error it raised. */
  datatype Result<+T, +E> = Ok(value: T) | Err(error: E) {

    predicate IsFailure() {
      Err?
    }

    function PropagateFailure<U>(): Result<U, E>
      requires Err?
    {
      Err(error)
    }

    function Extract(): T
      requires Ok?
    {
      value
    }
  }

  /** The conventional optional value (Python's `None` or a present value). */
  datatype Option<+T> = None | Some(value: T)
}

=== FILE: retry.dfy ===
/** The bounded retry loop of the grade branch (utils.py): the model is
    called at most three times with the same prompt, an empty answer counts
    as a failure, the first non-empty answer ends the loop, and the error of
    the third failure is raised. The model itself is an oracle: the outcome
    each successive call would have. */
module Retry {
  import opened Outcomes

  /** `max_retries`. */
  const MaxRetries: nat := 3

  /** What one call of `generate_content` did. */
  datatype CallOutcome =
    | Raised(message: string)   // the call raised (network, quota, blocked answer, ...)
    | NoResponse                // it returned no response object
    | Responded(text: string)   // it returned a response with this text

  /** The exception the loop re-raises after its last attempt. */
  datatype FetchError =
    | CallFailed(message: string)  // the call's own exception
    | EmptyResponse                // ValueError("Empty response from Gemini API")

  /** An attempt succeeds when it yields a response whose text is non-empty. */
  predicate Succeeded(o: CallOutcome) {
    o.Responded? && o.text != []
  }

  /** The exception a failed attempt raises inside the loop. */
  function AttemptError(o: CallOutcome): FetchError
    requires !Succeeded(o)
  {
    if o.Raised? then CallFailed(o.message) else EmptyResponse
  }

  /** Reference: the index of the first successful outcome among the first
      `n`, if any. */
  function FirstSuccess(oracle: seq<CallOutcome>, n: nat): (k: Option<nat>)
    requires n <= |oracle|
    ensures k.Some? ==> k.value < n && Succeeded(oracle[k.value])
    ensures k.Some? ==> forall j :: 0 <= j < k.value ==> !Succeeded(oracle[j])
    ensures k.None? ==> forall j :: 0 <= j < n ==> !Succeeded(oracle[j])
  {
    if n == 0 then None
    else
      match FirstSuccess(oracle, n - 1)
      case Some(k) => Some(k)
      case None => if Succeeded(oracle[n - 1]) then Some(n - 1) else None
  }

  /** The retry loop. `oracle[i]` is what the `i`-th call of the model would
      do; `calls` is how many calls were made. Against the reference: a first
      success at attempt `k + 1` makes exactly `k + 1` calls and yields that
      text; three failures make three calls and raise the third one's error. */
  method FetchResponse(oracle: seq<CallOutcome>) returns (r: Result<string, FetchError>, calls: nat)
    requires |oracle| >= MaxRetries
    ensures 1 <= calls <= MaxRetries
    ensures forall j :: 0 <= j < calls - 1 ==> !Succeeded(oracle[j])
    ensures r.Ok? ==> Succeeded(oracle[calls - 1]) && r.value == oracle[calls - 1].text
    ensures r.Err? ==> calls == MaxRetries
    ensures r.Err? ==> !Succeeded(oracle[calls - 1]) && r.error == AttemptError(oracle[calls - 1])
    ensures FirstSuccess(oracle, MaxRetries).Some? ==>
      var k := FirstSuccess(oracle, MaxRetries).value;
      calls == k + 1 && r == Ok(oracle[k].text)
    ensures FirstSuccess(oracle, MaxRetries).None? ==>
      calls == MaxRetries && r == Err(AttemptError(oracle[MaxRetries - 1]))
  {
    var retryCount := 0;
    calls := 0;
    while retryCount < MaxRetries
      invariant retryCount == calls < MaxRetries
      invariant forall j :: 0 <= j < calls ==> !Succeeded(oracle[j])
    {
      var outcome := oracle[calls];
      calls := calls + 1;
      if Succeeded(outcome) {
        return Ok(outcome.text), calls;
      }
      retryCount := retryCount + 1;
      if retryCount == MaxRetries {
        return Err(AttemptError(outcome)), calls;
      }
    }
    assert false;
  }

}

=== FILE: rubric.dfy ===
/** The grade branch of `analyze_with_gemini` after the model's text has been
    decoded (utils.py): check the five section keys, repair sections that are
    not dicts, scale each section from the 0-10 scale to `max_marks`, cap it,
    total the sections, cap the total, and read the AI-detection score. */
module Rubric {
  import opened Outcomes
  import opened Json

  /** The five rubric sections. */
  datatype Section = Introduction | MainBody | Conclusion | Examples | Diagrams

  /** `required_fields`, in the order the grade branch walks them. */
  const RequiredFields: seq<Section> := [Introduction, MainBody, Conclusion, Examples, Diagrams]

  /** The dict key of a section. */
  function Key(s: Section): string {
    match s
    case Introduction => "introduction"
    case MainBody => "main_body"
    case Conclusion => "conclusion"
    case Examples => "examples"
    case Diagrams => "diagrams"
  }

  /** Position of a section in `required_fields`. */
  function Rank(s: Section): nat {
    match s
    case Introduction => 0
    case MainBody => 1
    case Conclusion => 2
    case Examples => 3
    case Diagrams => 4
  }

  const DefaultFeedback: string := "No feedback available"
  const DetectionKey: string := "ai_detection_score"

  /** The share of `max_marks` a section is capped at: 40% for the
      introduction and the main body, 20% for every other section. */
  function Weight(s: Section): real {
    if s == Introduction || s == MainBody then 0.4 else 0.2
  }

  /** Whether `max_marks / 10` returns. Python divides two ints with a
      correctly rounded quotient and raises OverflowError when that quotient
      is not a finite double, that is when its magnitude reaches
      `FloatOverflow`. */
  predicate ScalingFits(maxMarks: int) {
    -10 * FloatOverflow < maxMarks < 10 * FloatOverflow
  }

  /** `scaling_factor`: from the 0-10 scale to `max_marks`. */
  function ScalingFactor(maxMarks: int): real {
    maxMarks as real / 10.0
  }

  /** `section_max`. The int `max_marks` is converted to a float for the
      product, which raises OverflowError unless `IntFitsFloat(maxMarks)`. */
  function SectionMax(s: Section, maxMarks: int): real {
    maxMarks as real * Weight(s)
  }

  /** Python's two-argument `min` on numbers. */
  function Min(a: real, b: real): (m: real)
    ensures m <= a && m <= b
    ensures m == a || m == b
  {
    if b < a then b else a
  }

  /** A section's marks on the 0-10 scale, scaled to `max_marks` and capped
      at the section's share of it: the scaled value when it is within the
      cap, the cap otherwise. */
  function CappedMarks(raw: real, s: Section, maxMarks: int): (m: real)
    ensures m <= SectionMax(s, maxMarks)
    ensures raw * ScalingFactor(maxMarks) <= SectionMax(s, maxMarks) ==> m == raw * ScalingFactor(maxMarks)
    ensures raw * ScalingFactor(maxMarks) > SectionMax(s, maxMarks) ==> m == SectionMax(s, maxMarks)
  {
    Min(raw * ScalingFactor(maxMarks), SectionMax(s, maxMarks))
  }

  /** One scaled section: its marks and its feedback. */
  datatype Scored = Scored(marks: real, feedback: string)

  /** The dict the grade branch returns. */
  datatype Grade = Grade(
    introduction: Scored,
    mainBody: Scored,
    conclusion: Scored,
    examples: Scored,
    diagrams: Scored,
    totalMarks: real,
    aiDetectionScore: real)
  {
    function Get(s: Section): Scored {
      match s
      case Introduction => introduction
      case MainBody => mainBody
      case Conclusion => conclusion
      case Examples => examples
      case Diagrams => diagrams
    }

    /** The sum of the five scaled sections. */
    function SectionSum(): real {
      introduction.marks + mainBody.marks + conclusion.marks + examples.marks + diagrams.marks
    }
  }

  /** The exceptions the grade branch raises after the retry loop. */
  datatype GradeError =
    | InvalidResponseFormat              // json.loads failed
    | MissingRequiredFields              // a required key is not `in` the decoded value
    | NotADict                           // TypeError: `in` or `[key]` on a value that is not a dict
    | MarksNotNumeric(section: Section)  // float(marks) raised
    | DetectionScoreNotNumeric           // float(ai_detection_score) raised
    | MaxMarksOverflow                   // OverflowError: float(max_marks) in max_marks * 0.4 or * 0.2
    | LoadsRaised(exception: string)     // json.loads raised something other than JSONDecodeError

  // ---------------------------------------------------------------------
  // The raw rubric, read off the decoded value.

  /** The marks the model gave a section on the 0-10 scale: a value that is
      not a dict, or a dict without `marks`, counts as 0; otherwise `float`
      of its `marks`, which may fail. */
  function RawMarks(v: Json, conv: Conversions): Option<real> {
    if v.Object? && "marks" in v.fields then ToFloat(v.fields["marks"], conv) else Some(0.0)
  }

  /** The feedback of a section: the default text unless it is a dict with
      a `feedback` entry. */
  function FeedbackOf(v: Json, conv: Conversions): string {
    if v.Object? && "feedback" in v.fields then ToStr(v.fields["feedback"], conv) else DefaultFeedback
  }

  /** The AI-detection score: 0 when absent, otherwise `float` of it. */
  function DetectionScore(fields: map<string, Json>, conv: Conversions): Option<real> {
    if DetectionKey in fields then ToFloat(fields[DetectionKey], conv) else Some(0.0)
  }

  /** A decoded value that is a dict holding all five section keys. */
  ghost predicate HasAllSections(raw: Json) {
    raw.Object? && forall s: Section :: Key(s) in raw.fields
  }

  /** A rubric the grade branch can score: `max_marks` converts with
      `float` (for the section caps), and every section's marks and the
      detection score convert too. */
  ghost predicate Scorable(raw: Json, maxMarks: int, conv: Conversions) {
    && IntFitsFloat(maxMarks)
    && HasAllSections(raw)
    && (forall s: Section :: RawMarks(raw.fields[Key(s)], conv).Some?)
    && DetectionScore(raw.fields, conv).Some?
  }

  // ---------------------------------------------------------------------
  // The code.

  predicate IsSubstring(needle: string, hay: string)
    decreases |hay|
  {
    (|needle| <= |hay| && hay[..|needle|] == needle)
    || (hay != [] && IsSubstring(needle, hay[1..]))
  }

  /** `field in raw_result`: key membership for a dict, element equality for
      a list, substring for a string; for anything else it raises (None). */
  function Contains(raw: Json, field: string): Option<bool> {
    match raw
    case Object(m) => Some(field in m)
    case Array(items) => Some(Str(field) in items)
    case Str(s) => Some(IsSubstring(field, s))
    case _ => None
  }

  /** The key check and the first subscript: the dict of sections, or the
      exception. A list or string passes `in` when it holds all five names
      but the subscript `raw_result[section]` then raises a TypeError. */
  function RequireFields(raw: Json): (r: Result<map<string, Json>, GradeError>)
    ensures r.Ok? <==> HasAllSections(raw)
    ensures r.Ok? ==> r.value == raw.fields
    ensures raw.Object? && !HasAllSections(raw) ==> r == Err(MissingRequiredFields)
    ensures (raw.Null? || raw.Bool? || raw.Int? || raw.Float?) ==> r == Err(NotADict)
  {
    if raw.Null? || raw.Bool? || raw.Int? || raw.Float? then Err(NotADict)
    else if !(forall s <- RequiredFields :: Contains(raw, Key(s)) == Some(true)) then
      Err(MissingRequiredFields)
    else if !raw.Object? then Err(NotADict)
    else
      AllSectionsRequired();
      Ok(raw.fields)
  }

  /** `required_fields` lists every section. */
  lemma AllSectionsRequired()
    ensures forall s: Section :: s in RequiredFields
    ensures forall s: Section :: Rank(s) < |RequiredFields| && RequiredFields[Rank(s)] == s
    ensures forall i :: 0 <= i < |RequiredFields| ==> Rank(RequiredFields[i]) == i
  {
    forall s: Section
      ensures s in RequiredFields
    {
      assert RequiredFields[Rank(s)] == s;
    }
  }

  /** The section value after the repair of a value that is not a dict. */
  function Repaired(v: Json): map<string, Json> {
    if v.Object? then v.fields
    else map["marks" := Int(0), "feedback" := Str(DefaultFeedback)]
  }

  /** One pass of the scaling loop: the section's marks times the scaling
      factor, capped at its share of `max_marks`, with its feedback. */
  function ScaleSection(fields: map<string, Json>, s: Section, maxMarks: int, conv: Conversions): (r: Result<Scored, GradeError>)
    requires Key(s) in fields
    ensures r.Ok? <==> IntFitsFloat(maxMarks) && RawMarks(fields[Key(s)], conv).Some?
    ensures r.Err? && !IntFitsFloat(maxMarks) ==> r.error == MaxMarksOverflow
    ensures r.Err? && IntFitsFloat(maxMarks) ==> r.error == MarksNotNumeric(s)
    ensures r.Ok? ==>
      r.value.marks == CappedMarks(RawMarks(fields[Key(s)], conv).value, s, maxMarks)
    ensures r.Ok? ==> r.value.marks <= SectionMax(s, maxMarks)
    ensures r.Ok? ==> r.value.feedback == FeedbackOf(fields[Key(s)], conv)
  {
    var section := Repaired(fields[Key(s)]);
    if !IntFitsFloat(maxMarks) then Err(MaxMarksOverflow)
    else
      match ToFloat(GetOr(section, "marks", Int(0)), conv)
      case None => Err(MarksNotNumeric(s))
      case Some(raw) =>
        Ok(Scored(CappedMarks(raw, s, maxMarks),
                  ToStr(GetOr(section, "feedback", Str(DefaultFeedback)), conv)))
  }

  /** One pass of the scaling loop as a function of the section alone. */
  function SectionPass(fields: map<string, Json>, maxMarks: int, conv: Conversions): Section -> Result<Scored, GradeError>
    requires forall s: Section :: Key(s) in fields
  {
    s => ScaleSection(fields, s, maxMarks, conv)
  }

  /** The scaling loop over `sections`: `pass` scales one section, and the
      first section whose pass fails stops the loop with that failure. */
  function ScaleEach(pass: Section -> Result<Scored, GradeError>, sections: seq<Section>)
    : (r: Result<seq<Scored>, GradeError>)
    ensures r.Ok? ==> |r.value| == |sections|
    decreases |sections|
  {
    if sections == [] then Ok([])
    else
      var first :- pass(sections[0]);
      var rest :- ScaleEach(pass, sections[1..]);
      Ok([first] + rest)
  }

  /** The grade branch on a decoded response. A value that is not a dict, or
      a dict without one of the five keys, is rejected; the total never
      exceeds `max_marks`. */
  function ScaleRubric(raw: Json, maxMarks: int, conv: Conversions): (r: Result<Grade, GradeError>)
    ensures r.Ok? ==> HasAllSections(raw)
    ensures (raw.Null? || raw.Bool? || raw.Int? || raw.Float?) ==> r == Err(NotADict)
    ensures raw.Object? && !HasAllSections(raw) ==> r == Err(MissingRequiredFields)
    ensures r.Ok? ==> r.value.totalMarks <= maxMarks as real
    ensures r.Ok? ==> r.value.totalMarks <= r.value.SectionSum()
    ensures r.Ok? ==> r.value.totalMarks == r.value.SectionSum() || r.value.totalMarks == maxMarks as real
  {
    var fields :- RequireFields(raw);
    var scored :- ScaleEach(SectionPass(fields, maxMarks, conv), RequiredFields);
    var baseMarks := scored[0].marks + scored[1].marks + scored[2].marks;
    var bonusMarks := scored[3].marks + scored[4].marks;
    var totalMarks := Min(baseMarks + bonusMarks, maxMarks as real);
    match ToFloat(GetOr(fields, DetectionKey, Int(0)), conv)
    case None => Err(DetectionScoreNotNumeric)
    case Some(score) => Ok(Grade(scored[0], scored[1], scored[2], scored[3], scored[4], totalMarks, score))
  }

  /** The loop succeeds exactly when every section's pass does, and then
      holds the passes' results in order. */
  lemma {:induction false} ScaleEachOk(pass: Section -> Result<Scored, GradeError>, sections: seq<Section>)
    ensures ScaleEach(pass, sections).Ok? <==> forall i :: 0 <= i < |sections| ==> pass(sections[i]).Ok?
    ensures ScaleEach(pass, sections).Ok? ==>
      forall i :: 0 <= i < |sections| ==> ScaleEach(pass, sections).value[i] == pass(sections[i]).value
    decreases |sections|
  {
    if sections != [] {
      var r := ScaleEach(pass, sections);
      var tail := sections[1..];
      ScaleEachOk(pass, tail);
      assert forall i :: 1 <= i < |sections| ==> sections[i] == tail[i - 1];
      if r.Ok? {
        var rest := ScaleEach(pass, tail).value;
        assert r.value == [pass(sections[0]).value] + rest;
        assert forall i :: 1 <= i < |sections| ==> r.value[i] == rest[i - 1];
      } else if pass(sections[0]).Ok? {
        var i :| 0 <= i < |tail| && pass(tail[i]).Err?;
        assert pass(sections[i + 1]).Err?;
      }
    }
  }

  /** A failed loop reports the failure of the first section whose pass
      fails: every section before it passes. */
  lemma {:induction false} ScaleEachFirstError(pass: Section -> Result<Scored, GradeError>, sections: seq<Section>)
    returns (k: nat)
    requires ScaleEach(pass, sections).Err?
    ensures k < |sections|
    ensures pass(sections[k]).Err?
    ensures ScaleEach(pass, sections).error == pass(sections[k]).error
    ensures forall i :: 0 <= i < k ==> pass(sections[i]).Ok?
    decreases |sections|
  {
    if pass(sections[0]).Err? {
      k := 0;
    } else {
      var tail := sections[1..];
      var j := ScaleEachFirstError(pass, tail);
      k := j + 1;
      assert forall i :: 1 <= i < |sections| ==> sections[i] == tail[i - 1];
    }
  }

  /** A successful grade holds, for each section, that section's pass of
      the scaling loop. */
  lemma ScaleRubricPart(raw: Json, s: Section, maxMarks: int, conv: Conversions)
    requires ScaleRubric(raw, maxMarks, conv).Ok?
    ensures HasAllSections(raw)
    ensures ScaleSection(raw.fields, s, maxMarks, conv).Ok?
    ensures ScaleRubric(raw, maxMarks, conv).value.Get(s) == ScaleSection(raw.fields, s, maxMarks, conv).value
  {
    var g := ScaleRubric(raw, maxMarks, conv).value;
    var fields := raw.fields;
    assert RequireFields(raw) == Ok(fields);
    var pass := SectionPass(fields, maxMarks, conv);
    var scored := ScaleEach(pass, RequiredFields).value;
    assert g.Get(s) == scored[Rank(s)];
    AllSectionsRequired();
    ScaleEachOk(pass, RequiredFields);
  }

  /** Each scaled section is the model's raw marks times `max_marks / 10`,
      capped at the section's share of `max_marks`, with the section's
      feedback. */
  lemma ScaledSection(raw: Json, s: Section, maxMarks: int, conv: Conversions)
    requires Scorable(raw, maxMarks, conv)
    ensures ScaleRubric(raw, maxMarks, conv).Ok?
    ensures ScaleRubric(raw, maxMarks, conv).value.Get(s) == Scored(
              CappedMarks(RawMarks(raw.fields[Key(s)], conv).value, s, maxMarks),
              FeedbackOf(raw.fields[Key(s)], conv))
    ensures ScaleRubric(raw, maxMarks, conv).value.Get(s).marks <= SectionMax(s, maxMarks)
  {
    ScorableSucceeds(raw, maxMarks, conv);
    ScaleRubricPart(raw, s, maxMarks, conv);
  }

  /** The detection score is read from the response, 0 when it is absent. */
  lemma DetectionScoreRead(raw: Json, maxMarks: int, conv: Conversions)
    requires Scorable(raw, maxMarks, conv)
    ensures ScaleRubric(raw, maxMarks, conv).Ok?
    ensures DetectionScore(raw.fields, conv) == Some(ScaleRubric(raw, maxMarks, conv).value.aiDetectionScore)
  {
    ScorableSucceeds(raw, maxMarks, conv);
    DetectionScoreOfGrade(raw, maxMarks, conv);
  }

  lemma DetectionScoreOfGrade(raw: Json, maxMarks: int, conv: Conversions)
    requires ScaleRubric(raw, maxMarks, conv).Ok?
    ensures HasAllSections(raw)
    ensures DetectionScore(raw.fields, conv) == Some(ScaleRubric(raw, maxMarks, conv).value.aiDetectionScore)
  {
    assert RequireFields(raw) == Ok(raw.fields);
  }

  /** The grade branch succeeds exactly on the rubrics it can score. */
  lemma ScaleRubricSucceedsIff(raw: Json, maxMarks: int, conv: Conversions)
    ensures ScaleRubric(raw, maxMarks, conv).Ok? <==> Scorable(raw, maxMarks, conv)
  {
    if Scorable(raw, maxMarks, conv) {
      ScorableSucceeds(raw, maxMarks, conv);
    }
    if ScaleRubric(raw, maxMarks, conv).Ok? {
      ScaleRubricPart(raw, Introduction, maxMarks, conv);
      forall s: Section
        ensures RawMarks(raw.fields[Key(s)], conv).Some?
      {
        ScaleRubricPart(raw, s, maxMarks, conv);
      }
      DetectionScoreOfGrade(raw, maxMarks, conv);
    }
  }

  lemma ScorableSucceeds(raw: Json, maxMarks: int, conv: Conversions)
    requires Scorable(raw, maxMarks, conv)
    ensures ScaleRubric(raw, maxMarks, conv).Ok?
  {
    assert RequireFields(raw) == Ok(raw.fields);
    ScorableLoopSucceeds(raw.fields, maxMarks, conv);
  }

  /** The scaling loop passes every section whose marks convert. */
  lemma ScorableLoopSucceeds(fields: map<string, Json>, maxMarks: int, conv: Conversions)
    requires IntFitsFloat(maxMarks)
    requires forall s: Section :: Key(s) in fields && RawMarks(fields[Key(s)], conv).Some?
    ensures ScaleEach(SectionPass(fields, maxMarks, conv), RequiredFields).Ok?
  {
    var pass := SectionPass(fields, maxMarks, conv);
    forall i | 0 <= i < |RequiredFields|
      ensures pass(RequiredFields[i]).Ok?
    {
      var s := RequiredFields[i];
      assert pass(s) == ScaleSection(fields, s, maxMarks, conv);
    }
    ScaleEachOk(pass, RequiredFields);
  }

  /** When a section's marks do not convert, the error names the first such
      section in `required_fields` order. */
  lemma FirstBadSectionReported(raw: Json, maxMarks: int, conv: Conversions)
    requires ScaleRubric(raw, maxMarks, conv).Err?
    requires ScaleRubric(raw, maxMarks, conv).error.MarksNotNumeric?
    ensures var s := ScaleRubric(raw, maxMarks, conv).error.section;
      && HasAllSections(raw)
      && RawMarks(raw.fields[Key(s)], conv).None?
      && forall t: Section :: Rank(t) < Rank(s) ==> RawMarks(raw.fields[Key(t)], conv).Some?
  {
    var fields := raw.fields;
    assert RequireFields(raw) == Ok(fields);
    var pass := SectionPass(fields, maxMarks, conv);
    var k := ScaleEachFirstError(pass, RequiredFields);
    AllSectionsRequired();
    assert ScaleRubric(raw, maxMarks, conv).error == ScaleEach(pass, RequiredFields).error;
  }

  /** In exact arithmetic the three base sections alone never exceed
      `max_marks`, whatever its sign: their caps are 40% + 40% + 20% of it.
      Only the two bonus sections can reach the final cap. */
  lemma BaseSectionsWithinMax(raw: Json, maxMarks: int, conv: Conversions)
    requires Scorable(raw, maxMarks, conv)
    ensures ScaleRubric(raw, maxMarks, conv).Ok?
    ensures var g := ScaleRubric(raw, maxMarks, conv).value;
      g.introduction.marks + g.mainBody.marks + g.conclusion.marks <= maxMarks as real
  {
    ScaledSection(raw, Introduction, maxMarks, conv);
    ScaledSection(raw, MainBody, maxMarks, conv);
    ScaledSection(raw, Conclusion, maxMarks, conv);
  }

  // ---------------------------------------------------------------------
  // Worked cases.

  /** A section dict `{"marks": marks, "feedback": feedback}`. */
  function SectionValue(marks: real, feedback: string): Json {
    Object(map["marks" := Float(marks), "feedback" := Str(feedback)])
  }

  /** A response dict with the five sections and a detection score. */
  function Response(intro: Json, body: Json, conclusion: Json, examples: Json, diagrams: Json, score: Json): Json {
    Object(map[
      "introduction" := intro,
      "main_body" := body,
      "conclusion" := conclusion,
      "examples" := examples,
      "diagrams" := diagrams,
      "ai_detection_score" := score])
  }

  /** The readings of a section dict. */
  lemma SectionValueReads(marks: real, feedback: string, conv: Conversions)
    ensures RawMarks(SectionValue(marks, feedback), conv) == Some(marks)
    ensures FeedbackOf(SectionValue(marks, feedback), conv) == feedback
  {
    var m := SectionValue(marks, feedback).fields;
    assert "marks" in m && m["marks"] == Float(marks);
    assert "feedback" in m && m["feedback"] == Str(feedback);
  }

  /** The entries of a response dict. */
  lemma ResponseEntries(intro: Json, body: Json, conclusion: Json, examples: Json, diagrams: Json, score: Json)
    ensures var raw := Response(intro, body, conclusion, examples, diagrams, score);
      && HasAllSections(raw)
      && raw.fields[Key(Introduction)] == intro
      && raw.fields[Key(MainBody)] == body
      && raw.fields[Key(Conclusion)] == conclusion
      && raw.fields[Key(Examples)] == examples
      && raw.fields[Key(Diagrams)] == diagrams
      && DetectionKey in raw.fields && raw.fields[DetectionKey] == score
  {
    var raw := Response(intro, body, conclusion, examples, diagrams, score);
    forall s: Section
      ensures Key(s) in raw.fields
    {
      match s
      case Introduction =>
      case MainBody =>
      case Conclusion =>
      case Examples =>
      case Diagrams =>
    }
  }

  /** Numeric marks in every section and a numeric detection score make a
      response scorable. */
  lemma ResponseScorable(raw: Json, a: real, b: real, c: real, d: real, e: real, score: real, maxMarks: int, conv: Conversions)
    requires IntFitsFloat(maxMarks)
    requires raw == Response(SectionValue(a, "a"), SectionValue(b, "b"), SectionValue(c, "c"),
                             SectionValue(d, "d"), SectionValue(e, "e"), Float(score))
    ensures Scorable(raw, maxMarks, conv)
  {
    ResponseEntries(SectionValue(a, "a"), SectionValue(b, "b"), SectionValue(c, "c"),
                    SectionValue(d, "d"), SectionValue(e, "e"), Float(score));
    forall s: Section
      ensures RawMarks(raw.fields[Key(s)], conv).Some?
    {
      match s
      case Introduction => SectionValueReads(a, "a", conv);
      case MainBody => SectionValueReads(b, "b", conv);
      case Conclusion => SectionValueReads(c, "c", conv);
      case Examples => SectionValueReads(d, "d", conv);
      case Diagrams => SectionValueReads(e, "e", conv);
    }
  }

  /** A well-formed response with numeric marks and string feedback is
      scored section by section. */
  lemma ScoreWellFormedSections(raw: Json, a: real, b: real, c: real, d: real, e: real, score: real, maxMarks: int, conv: Conversions)
    requires IntFitsFloat(maxMarks)
    requires raw == Response(SectionValue(a, "a"), SectionValue(b, "b"), SectionValue(c, "c"),
                             SectionValue(d, "d"), SectionValue(e, "e"), Float(score))
    ensures ScaleRubric(raw, maxMarks, conv).Ok?
    ensures var g := ScaleRubric(raw, maxMarks, conv).value;
      && g.introduction == Scored(CappedMarks(a, Introduction, maxMarks), "a")
      && g.mainBody == Scored(CappedMarks(b, MainBody, maxMarks), "b")
      && g.conclusion == Scored(CappedMarks(c, Conclusion, maxMarks), "c")
      && g.examples == Scored(CappedMarks(d, Examples, maxMarks), "d")
      && g.diagrams == Scored(CappedMarks(e, Diagrams, maxMarks), "e")
      && g.aiDetectionScore == score
  {
    ResponseEntries(SectionValue(a, "a"), SectionValue(b, "b"), SectionValue(c, "c"),
                    SectionValue(d, "d"), SectionValue(e, "e"), Float(score));
    ResponseScorable(raw, a, b, c, d, e, score, maxMarks, conv);
    WellFormedSection(raw, Introduction, a, "a", maxMarks, conv);
    WellFormedSection(raw, MainBody, b, "b", maxMarks, conv);
    WellFormedSection(raw, Conclusion, c, "c", maxMarks, conv);
    WellFormedSection(raw, Examples, d, "d", maxMarks, conv);
    WellFormedSection(raw, Diagrams, e, "e", maxMarks, conv);
    DetectionScoreRead(raw, maxMarks, conv);
  }

  /** A section dict with numeric marks is scaled from those marks. */
  lemma WellFormedSection(raw: Json, s: Section, marks: real, feedback: string, maxMarks: int, conv: Conversions)
    requires Scorable(raw, maxMarks, conv)
    requires raw.fields[Key(s)] == SectionValue(marks, feedback)
    ensures ScaleRubric(raw, maxMarks, conv).Ok?
    ensures ScaleRubric(raw, maxMarks, conv).value.Get(s) == Scored(CappedMarks(marks, s, maxMarks), feedback)
  {
    SectionValueReads(marks, feedback, conv);
    ScaledSection(raw, s, maxMarks, conv);
  }

  /** Raw marks 8, 9, 7, 0, 0 on a 10-mark question scale to 4, 4, 2, 0, 0
      after the caps, for a total of 10. */
  lemma WorkedExample(conv: Conversions)
    ensures ScaleRubric(Response(SectionValue(8.0, "a"), SectionValue(9.0, "b"), SectionValue(7.0, "c"),
                                 SectionValue(0.0, "d"), SectionValue(0.0, "e"), Float(0.1)), 10, conv)
         == Ok(Grade(Scored(4.0, "a"), Scored(4.0, "b"), Scored(2.0, "c"), Scored(0.0, "d"), Scored(0.0, "e"), 10.0, 0.1))
  {
    var raw := Response(SectionValue(8.0, "a"), SectionValue(9.0, "b"), SectionValue(7.0, "c"),
                        SectionValue(0.0, "d"), SectionValue(0.0, "e"), Float(0.1));
    ScoreWellFormedSections(raw, 8.0, 9.0, 7.0, 0.0, 0.0, 0.1, 10, conv);
  }

  /** Full marks everywhere on a 20-mark question: the sections scale to 8,
      8, 4, 4, 4 (the diagrams cap is 20% whether or not diagrams were
      asked for), their sum 28 overshoots, and the total is cut to 20. */
  lemma BonusStopsAtMaxMarks(conv: Conversions)
    ensures ScaleRubric(Response(SectionValue(10.0, "a"), SectionValue(10.0, "b"), SectionValue(10.0, "c"),
                                 SectionValue(10.0, "d"), SectionValue(10.0, "e"), Float(0.0)), 20, conv)
         == Ok(Grade(Scored(8.0, "a"), Scored(8.0, "b"), Scored(4.0, "c"), Scored(4.0, "d"), Scored(4.0, "e"), 20.0, 0.0))
  {
    var raw := Response(SectionValue(10.0, "a"), SectionValue(10.0, "b"), SectionValue(10.0, "c"),
                        SectionValue(10.0, "d"), SectionValue(10.0, "e"), Float(0.0));
    ScoreWellFormedSections(raw, 10.0, 10.0, 10.0, 10.0, 10.0, 0.0, 20, conv);
  }

  /** Raw marks are not clamped to the 0-10 scale: a negative mark scales to
      negative marks and lowers the total. */
  lemma NegativeMarksPassThrough(conv: Conversions)
    ensures ScaleRubric(Response(SectionValue(-5.0, "a"), SectionValue(0.0, "b"), SectionValue(0.0, "c"),
                                 SectionValue(0.0, "d"), SectionValue(0.0, "e"), Float(0.0)), 10, conv)
         == Ok(Grade(Scored(-5.0, "a"), Scored(0.0, "b"), Scored(0.0, "c"), Scored(0.0, "d"), Scored(0.0, "e"), -5.0, 0.0))
  {
    var raw := Response(SectionValue(-5.0, "a"), SectionValue(0.0, "b"), SectionValue(0.0, "c"),
                        SectionValue(0.0, "d"), SectionValue(0.0, "e"), Float(0.0));
    ScoreWellFormedSections(raw, -5.0, 0.0, 0.0, 0.0, 0.0, 0.0, 10, conv);
  }

  /** A section whose value is not a dict is repaired to zero marks and the
      default feedback; with a non-negative `max_marks` it scores 0. */
  lemma NonDictSectionRepaired(raw: Json, s: Section, maxMarks: int, conv: Conversions)
    requires Scorable(raw, maxMarks, conv)
    requires !raw.fields[Key(s)].Object?
    ensures ScaleRubric(raw, maxMarks, conv).Ok?
    ensures ScaleRubric(raw, maxMarks, conv).value.Get(s) == Scored(CappedMarks(0.0, s, maxMarks), DefaultFeedback)
    ensures maxMarks >= 0 ==> ScaleRubric(raw, maxMarks, conv).value.Get(s).marks == 0.0
  {
    ScaledSection(raw, s, maxMarks, conv);
  }

  /** Marks `float` cannot convert (a string it rejects, `None`, a list, a
      dict, an int out of the double range) make the whole grade branch
      fail. With a `max_marks` that converts, the error names that section
      or an earlier one; otherwise the cap of the first section has already
      raised OverflowError. */
  lemma UnconvertibleMarksFail(raw: Json, s: Section, maxMarks: int, conv: Conversions)
    requires HasAllSections(raw)
    requires RawMarks(raw.fields[Key(s)], conv).None?
    ensures ScaleRubric(raw, maxMarks, conv).Err?
    ensures !IntFitsFloat(maxMarks) ==> ScaleRubric(raw, maxMarks, conv).error == MaxMarksOverflow
    ensures IntFitsFloat(maxMarks) ==>
      && ScaleRubric(raw, maxMarks, conv).error.MarksNotNumeric?
      && Rank(ScaleRubric(raw, maxMarks, conv).error.section) <= Rank(s)
  {
    assert RequireFields(raw) == Ok(raw.fields);
    if IntFitsFloat(maxMarks) {
      LoopStopsBySection(raw.fields, s, maxMarks, conv);
    } else {
      LoopStopsAtFirstSection(raw.fields, maxMarks, conv);
    }
  }

  /** A section whose marks do not convert stops the scaling loop at that
      section or an earlier one. */
  lemma LoopStopsBySection(fields: map<string, Json>, s: Section, maxMarks: int, conv: Conversions)
    requires forall t: Section :: Key(t) in fields
    requires IntFitsFloat(maxMarks)
    requires RawMarks(fields[Key(s)], conv).None?
    ensures ScaleEach(SectionPass(fields, maxMarks, conv), RequiredFields).Err?
    ensures ScaleEach(SectionPass(fields, maxMarks, conv), RequiredFields).error.MarksNotNumeric?
    ensures Rank(ScaleEach(SectionPass(fields, maxMarks, conv), RequiredFields).error.section) <= Rank(s)
  {
    var pass := SectionPass(fields, maxMarks, conv);
    AllSectionsRequired();
    assert pass(RequiredFields[Rank(s)]).Err?;
    ScaleEachOk(pass, RequiredFields);
    var k := ScaleEachFirstError(pass, RequiredFields);
    assert pass(RequiredFields[k]) == ScaleSection(fields, RequiredFields[k], maxMarks, conv);
  }

  /** A `max_marks` out of the double range stops the scaling loop at its
      first section, before any marks are read. */
  lemma LoopStopsAtFirstSection(fields: map<string, Json>, maxMarks: int, conv: Conversions)
    requires forall t: Section :: Key(t) in fields
    requires !IntFitsFloat(maxMarks)
    ensures ScaleEach(SectionPass(fields, maxMarks, conv), RequiredFields) == Err(MaxMarksOverflow)
  {
    var pass := SectionPass(fields, maxMarks, conv);
    assert pass(RequiredFields[0]) == ScaleSection(fields, Introduction, maxMarks, conv);
  }

  /** A `max_marks` too large for a double fails every rubric that passes
      the key check, whatever its sections hold. */
  lemma MaxMarksOverflowFails(raw: Json, maxMarks: int, conv: Conversions)
    requires HasAllSections(raw)
    requires !IntFitsFloat(maxMarks)
    ensures ScaleRubric(raw, maxMarks, conv) == Err(MaxMarksOverflow)
  {
    assert RequireFields(raw) == Ok(raw.fields);
    LoopStopsAtFirstSection(raw.fields, maxMarks, conv);
  }

  /** Sections that all convert and a detection score that does not: the
      grade branch fails at `float(ai_detection_score)`. */
  lemma DetectionScoreFailureReported(raw: Json, maxMarks: int, conv: Conversions)
    requires HasAllSections(raw) && IntFitsFloat(maxMarks)
    requires forall s: Section :: RawMarks(raw.fields[Key(s)], conv).Some?
    requires DetectionScore(raw.fields, conv).None?
    ensures ScaleRubric(raw, maxMarks, conv) == Err(DetectionScoreNotNumeric)
  {
    assert RequireFields(raw) == Ok(raw.fields);
    ScorableLoopSucceeds(raw.fields, maxMarks, conv);
  }

  /** A list holding the five names passes the key check but cannot be
      subscripted by a name; a string without them fails the key check. */
  lemma NonDictResponses(maxMarks: int, conv: Conversions)
    ensures ScaleRubric(Array([Str("introduction"), Str("main_body"), Str("conclusion"),
                               Str("examples"), Str("diagrams")]), maxMarks, conv) == Err(NotADict)
    ensures ScaleRubric(Str("ok"), maxMarks, conv) == Err(MissingRequiredFields)
  {
    var names := Array([Str("introduction"), Str("main_body"), Str("conclusion"),
                        Str("examples"), Str("diagrams")]);
    assert RequireFields(names) == Err(NotADict) by {
      assert forall s <- RequiredFields :: Contains(names, Key(s)) == Some(true);
    }
    assert RequireFields(Str("ok")) == Err(MissingRequiredFields) by {
      assert !IsSubstring("introduction", "ok") by {
        assert !IsSubstring("introduction", "");
        assert !IsSubstring("introduction", "k");
      }
      assert Contains(Str("ok"), Key(RequiredFields[0])) == Some(false);
    }
  }
}

=== FILE: text_clean.dfy ===
/** The text normaliser applied to text extracted from an uploaded answer
    (`clean_text` in utils.py): every run of whitespace becomes one space,
    the line-break substitution that follows it finds nothing left to do,
    and the result is stripped at both ends. */
module TextClean {

  /** Python's `\s` (and `str.isspace`, used by `str.strip`) on `str` values:
      the ASCII controls TAB..CR and FS..US, the space, NEL, NBSP and the
      Unicode space separators. */
  const SpaceChars: set<char> := {
    '\t', '\n', '\U{B}', '\U{C}', '\r', '\U{1C}', '\U{1D}', '\U{1E}', '\U{1F}', ' ',
    '\U{85}', '\U{A0}', '\U{1680}',
    '\U{2000}', '\U{2001}', '\U{2002}', '\U{2003}', '\U{2004}', '\U{2005}',
    '\U{2006}', '\U{2007}', '\U{2008}', '\U{2009}', '\U{200A}',
    '\U{2028}', '\U{2029}', '\U{202F}', '\U{205F}', '\U{3000}'
  }

  predicate IsSpace(c: char) {
    c in SpaceChars
  }

  predicate NotSpace(c: char) {
    !IsSpace(c)
  }

  /** The character class `[\r\n]` of the second substitution. */
  predicate IsLineBreak(c: char) {
    c == '\r' || c == '\n'
  }

  /** Length of the longest prefix of `s` whose characters all satisfy `p`. */
  function RunLength(s: string, p: char -> bool): (n: nat)
    ensures n <= |s|
    ensures forall i :: 0 <= i < n ==> p(s[i])
    ensures n < |s| ==> !p(s[n])
  {
    if s == [] || !p(s[0]) then 0 else 1 + RunLength(s[1..], p)
  }

  /** `s` without its longest prefix of characters satisfying `p`. */
  function DropRun(s: string, p: char -> bool): (r: string)
    ensures |r| <= |s| && r == s[|s| - |r|..]
    ensures forall i :: 0 <= i < |s| - |r| ==> p(s[i])
    ensures r == [] || !p(r[0])
  {
    s[RunLength(s, p)..]
  }

  /** Characters `i` and `i + 1` of `s` both belong to the class. */
  predicate AdjacentIn(s: string, i: int, inClass: char -> bool)
    requires 0 <= i < |s| - 1
  {
    inClass(s[i]) && inClass(s[i + 1])
  }

  /** No two characters of the class stand side by side in `r`. */
  ghost predicate NoRun(r: string, inClass: char -> bool) {
    forall i :: 0 <= i < |r| - 1 ==> !AdjacentIn(r, i, inClass)
  }

  /** `re.sub('[class]+', rep, s)`: every maximal run of characters of the
      class is replaced by the single character `rep`; the other characters
      are copied. */
  function Squeeze(s: string, inClass: char -> bool, rep: char): (r: string)
    decreases |s|
  {
    if s == [] then []
    else if inClass(s[0]) then [rep] + Squeeze(DropRun(s, inClass), inClass, rep)
    else [s[0]] + Squeeze(s[1..], inClass, rep)
  }

  /** `s` without its trailing whitespace (the right half of `str.strip`). */
  function TrimEnd(s: string): (r: string)
    ensures |r| <= |s| && r == s[..|r|]
    ensures r == [] || !IsSpace(r[|r| - 1])
    ensures forall i :: |r| <= i < |s| ==> IsSpace(s[i])
  {
    if s != [] && IsSpace(s[|s| - 1]) then TrimEnd(s[..|s| - 1]) else s
  }

  /** `r` is the piece of `s` starting at `k`, and everything of `s` before
      and after that piece is whitespace. */
  ghost predicate StrippedFrom(r: string, s: string, k: int) {
    && 0 <= k <= |s| - |r|
    && r == s[k..k + |r|]
    && (forall i :: 0 <= i < k ==> IsSpace(s[i]))
    && (forall i :: k + |r| <= i < |s| ==> IsSpace(s[i]))
  }

  /** `str.strip()` with no arguments: the text between the leading and the
      trailing whitespace. */
  function Strip(s: string): (r: string)
    ensures r == [] || (!IsSpace(r[0]) && !IsSpace(r[|r| - 1]))
    ensures exists k {:trigger StrippedFrom(r, s, k)} :: StrippedFrom(r, s, k)
  {
    var d := DropRun(s, IsSpace);
    var k := |s| - |d|;
    assert d == s[k..];
    assert forall i :: k + |TrimEnd(d)| <= i < |s| ==> s[i] == d[i - k];
    assert forall i :: 0 <= i < k ==> IsSpace(s[i]);
    assert StrippedFrom(TrimEnd(d), s, k);
    TrimEnd(d)
  }

  /** `clean_text`: collapse whitespace runs, collapse line-break runs, strip. */
  function CleanText(s: string): (r: string)
    ensures IsClean(r)
    ensures Words(r) == Words(s)
    ensures KeptChars(r) == KeptChars(s)
  {
    CleanTextIsJoinOfWords(s);
    JoinIsClean(Words(s));
    WordsOfJoin(Words(s));
    CleanTextKeepsChars(s);
    Strip(Squeeze(Squeeze(s, IsSpace, ' '), IsLineBreak, '\n'))
  }

  // ---------------------------------------------------------------------
  // Reference view: the words of a text and their single-space join.

  /** A word: a non-empty run of non-whitespace characters. */
  ghost predicate IsWord(w: string) {
    w != [] && forall i :: 0 <= i < |w| ==> !IsSpace(w[i])
  }

  /** The maximal non-whitespace runs of `s`, in order. */
  function Words(s: string): (ws: seq<string>)
    ensures forall i :: 0 <= i < |ws| ==> IsWord(ws[i])
    decreases |s|
  {
    if s == [] then []
    else if IsSpace(s[0]) then Words(s[1..])
    else
      var n := RunLength(s, NotSpace);
      [s[..n]] + Words(s[n..])
  }

  /** The words separated by single spaces. */
  function Join(ws: seq<string>): string {
    if |ws| == 0 then []
    else if |ws| == 1 then ws[0]
    else ws[0] + " " + Join(ws[1..])
  }

  /** A normalised text: no whitespace at either end, every whitespace
      character a plain space, and no two whitespace characters adjacent. */
  ghost predicate IsClean(r: string) {
    && (r == [] || (!IsSpace(r[0]) && !IsSpace(r[|r| - 1])))
    && (forall i :: 0 <= i < |r| && IsSpace(r[i]) ==> r[i] == ' ')
    && NoRun(r, IsSpace)
  }

  /** The non-whitespace characters of `s`, in order. */
  function KeptChars(s: string): string
    decreases |s|
  {
    if s == [] then []
    else if IsSpace(s[0]) then KeptChars(s[1..])
    else [s[0]] + KeptChars(s[1..])
  }

  // ---------------------------------------------------------------------
  // Lemmas

  /** What `re.sub` leaves: every character is the replacement or lies
      outside the class, and the text starts with the replacement exactly
      when it started with a character of the class. */
  lemma {:induction false} SqueezeOutput(s: string, inClass: char -> bool, rep: char)
    ensures ClassReplaced(Squeeze(s, inClass, rep), inClass, rep)
    ensures s != [] ==> SqueezeHead(s, inClass, rep)
    decreases |s|
  {
    var r := Squeeze(s, inClass, rep);
    if s != [] {
      var t := if inClass(s[0]) then DropRun(s, inClass) else s[1..];
      var r' := Squeeze(t, inClass, rep);
      assert r == [if inClass(s[0]) then rep else s[0]] + r';
      SqueezeOutput(t, inClass, rep);
      forall i | 0 <= i < |r|
        ensures r[i] == rep || !inClass(r[i])
      {
        if i > 0 {
          assert r[i] == r'[i - 1];
        }
      }
    }
  }

  /** Every character of `r` is `rep` or lies outside the class. */
  ghost predicate ClassReplaced(r: string, inClass: char -> bool, rep: char) {
    forall i :: 0 <= i < |r| ==> r[i] == rep || !inClass(r[i])
  }

  /** The first character of a squeezed non-empty text. */
  predicate SqueezeHead(s: string, inClass: char -> bool, rep: char)
    requires s != []
  {
    var r := Squeeze(s, inClass, rep);
    r != [] && r[0] == (if inClass(s[0]) then rep else s[0])
  }

  /** Substituting a class that does not occur changes nothing. */
  lemma {:induction false} SqueezeAbsent(s: string, inClass: char -> bool, rep: char)
    requires forall i :: 0 <= i < |s| ==> !inClass(s[i])
    ensures Squeeze(s, inClass, rep) == s
    decreases |s|
  {
    if s != [] {
      SqueezeAbsent(s[1..], inClass, rep);
    }
  }

  /** No two characters of the class are left side by side: each maximal
      run has become exactly one `rep`. */
  lemma {:induction false} SqueezeLeavesNoRun(s: string, inClass: char -> bool, rep: char)
    ensures NoRun(Squeeze(s, inClass, rep), inClass)
    decreases |s|
  {
    var r := Squeeze(s, inClass, rep);
    if s != [] {
      var t := s[1..];
      if inClass(s[0]) {
        t := DropRun(s, inClass);
        assert r == [rep] + Squeeze(t, inClass, rep);
      } else {
        assert r == [s[0]] + Squeeze(t, inClass, rep);
      }
      SqueezeLeavesNoRun(t, inClass, rep);
      var r' := Squeeze(t, inClass, rep);
      SqueezeOutput(t, inClass, rep);
      forall i | 0 <= i < |r| - 1
        ensures !AdjacentIn(r, i, inClass)
      {
        if i == 0 {
          assert r[1] == r'[0];
        } else {
          assert !AdjacentIn(r', i - 1, inClass);
          assert r[i] == r'[i - 1] && r[i + 1] == r'[i];
        }
      }
    }
  }

  /** The `[\r\n]+` substitution of `clean_text` is a no-op: the `\s+`
      substitution before it has already turned every line break into a space. */
  lemma {:induction false} LineBreakStepIsNoOp(s: string)
    ensures Squeeze(Squeeze(s, IsSpace, ' '), IsLineBreak, '\n') == Squeeze(s, IsSpace, ' ')
  {
    var c := Squeeze(s, IsSpace, ' ');
    SqueezeOutput(s, IsSpace, ' ');
    forall i | 0 <= i < |c|
      ensures !IsLineBreak(c[i])
    {
      assert c[i] == ' ' || !IsSpace(c[i]);
    }
    SqueezeAbsent(c, IsLineBreak, '\n');
  }

  /** A prefix free of the class is copied unchanged. */
  lemma {:induction false} SqueezePlainPrefix(s: string, k: nat, inClass: char -> bool, rep: char)
    requires k <= |s|
    requires forall i :: 0 <= i < k ==> !inClass(s[i])
    ensures Squeeze(s, inClass, rep) == s[..k] + Squeeze(s[k..], inClass, rep)
    decreases k
  {
    if k == 0 {
      assert s[..0] + s[0..] == s;
    } else {
      assert Squeeze(s, inClass, rep) == [s[0]] + Squeeze(s[1..], inClass, rep) by {
        assert !inClass(s[0]);
      }
      SqueezePlainPrefix(s[1..], k - 1, inClass, rep);
      ConsPrefix(s, k, Squeeze(s[k..], inClass, rep));
    }
  }

  /** Re-associating the first step of a prefix split. */
  lemma ConsPrefix(s: string, k: nat, x: string)
    requires 1 <= k <= |s|
    ensures s[1..][k - 1..] == s[k..]
    ensures [s[0]] + (s[1..][..k - 1] + x) == s[..k] + x
  {
    assert s[1..][..k - 1] == s[1..k];
    assert s[..k] == [s[0]] + s[1..k];
  }

  /** Trailing whitespace is trimmed from the right operand first, and from
      the left one only when the right one is all whitespace. */
  lemma {:induction false} TrimEndAppend(a: string, b: string)
    ensures TrimEnd(a + b) == if TrimEnd(b) == [] then TrimEnd(a) else a + TrimEnd(b)
    decreases |b|
  {
    if b == [] {
      assert a + b == a;
    } else if IsSpace(b[|b| - 1]) {
      assert (a + b)[..|a + b| - 1] == a + b[..|b| - 1];
      TrimEndAppend(a, b[..|b| - 1]);
    }
  }

  /** Leading whitespace does not change the words. */
  lemma {:induction false} WordsSkipSpaces(s: string)
    ensures Words(DropRun(s, IsSpace)) == Words(s)
    decreases |s|
  {
    if s != [] && IsSpace(s[0]) {
      WordsSkipSpaces(s[1..]);
      assert DropRun(s[1..], IsSpace) == DropRun(s, IsSpace);
    }
  }

  /** A text that starts with a word: the word is the first of the words. */
  lemma SplitWord(t: string) returns (w: string, rest: string)
    requires t != [] && !IsSpace(t[0])
    ensures t == w + rest && IsWord(w)
    ensures rest == [] || IsSpace(rest[0])
    ensures Words(t) == [w] + Words(rest)
  {
    var n := RunLength(t, NotSpace);
    w, rest := t[..n], t[n..];
    assert t == w + rest;
  }

  /** The collapse copies a leading word. */
  lemma CollapseWord(t: string, w: string, rest: string)
    requires t == w + rest && IsWord(w)
    ensures Squeeze(t, IsSpace, ' ') == w + Squeeze(rest, IsSpace, ' ')
  {
    SqueezePlainPrefix(t, |w|, IsSpace, ' ');
    assert t[..|w|] == w && t[|w|..] == rest;
  }

  /** A text that starts with whitespace: the run becomes one space and
      contributes no word. */
  lemma SplitSpace(t: string) returns (rest: string)
    requires t != [] && IsSpace(t[0])
    ensures rest == [] || !IsSpace(rest[0])
    ensures |rest| < |t|
    ensures Squeeze(t, IsSpace, ' ') == [' '] + Squeeze(rest, IsSpace, ' ')
    ensures Words(t) == Words(rest)
  {
    rest := DropRun(t, IsSpace);
    WordsSkipSpaces(t);
  }

  /** Trimming the end of a word, a space and more text. */
  lemma TrimEndAfterWord(w: string, x: string)
    requires IsWord(w)
    ensures TrimEnd(w + [' '] + x) == if TrimEnd(x) == [] then w else w + " " + TrimEnd(x)
  {
    TrimEndAppend(w + [' '], x);
    assert TrimEnd(w + [' ']) == w;
  }

  /** A text that does not start with whitespace, collapsed and trimmed at
      its end, is the single-space join of its words. */
  lemma {:induction false} CollapseTrimEnd(t: string)
    requires t == [] || !IsSpace(t[0])
    ensures TrimEnd(Squeeze(t, IsSpace, ' ')) == Join(Words(t))
    decreases |t|
  {
    if t == [] {
      return;
    }
    var w, rest := SplitWord(t);
    CollapseWord(t, w, rest);
    if rest == [] {
      assert Squeeze(t, IsSpace, ' ') == w + [];
      assert TrimEnd(w) == w;
    } else {
      var t' := SplitSpace(rest);
      var x := Squeeze(t', IsSpace, ' ');
      assert Squeeze(t, IsSpace, ' ') == w + [' '] + x;
      TrimEndAfterWord(w, x);
      if t' != [] {
        CollapseTrimEnd(t');
        assert x[0] == t'[0];
        JoinAfterWord(w, Words(t'));
      }
    }
  }

  /** `clean_text` equals the reference: the words of the input joined by
      single spaces. */
  lemma {:induction false} CleanTextIsJoinOfWords(s: string)
    ensures Strip(Squeeze(Squeeze(s, IsSpace, ' '), IsLineBreak, '\n')) == Join(Words(s))
  {
    LineBreakStepIsNoOp(s);
    var t := DropRun(s, IsSpace);
    var c := Squeeze(s, IsSpace, ' ');
    if s != [] && IsSpace(s[0]) {
      assert c == [' '] + Squeeze(t, IsSpace, ' ');
      assert DropRun(c, IsSpace) == Squeeze(t, IsSpace, ' ');
    } else {
      assert t == s;
      assert DropRun(c, IsSpace) == c;
    }
    CollapseTrimEnd(t);
    WordsSkipSpaces(s);
  }

  /** The join of words is clean, and starts and ends with a word character. */
  lemma {:induction false} JoinIsClean(ws: seq<string>)
    requires forall i :: 0 <= i < |ws| ==> IsWord(ws[i])
    ensures IsClean(Join(ws))
    ensures ws != [] ==> Join(ws) != []
    decreases |ws|
  {
    if |ws| > 1 {
      JoinIsClean(ws[1..]);
      var w, j := ws[0], Join(ws[1..]);
      var r := w + " " + j;
      assert r == Join(ws);
      assert IsWord(w);
      forall i | 0 <= i < |r| - 1
        ensures !AdjacentIn(r, i, IsSpace)
      {
        if i < |w| - 1 {
          assert r[i + 1] == w[i + 1];
        } else if i == |w| - 1 {
          assert r[i] == w[i];
        } else if i == |w| {
          assert r[i + 1] == j[0];
        } else {
          assert !AdjacentIn(j, i - |w| - 1, IsSpace);
          assert r[i] == j[i - |w| - 1];
        }
      }
      forall i | 0 <= i < |r| && IsSpace(r[i])
        ensures r[i] == ' '
      {
        if i > |w| {
          assert r[i] == j[i - |w| - 1];
        }
      }
      assert r[|r| - 1] == j[|j| - 1];
    }
  }

  /** Splitting the join of words gives the words back. */
  lemma {:induction false} WordsOfJoin(ws: seq<string>)
    requires forall i :: 0 <= i < |ws| ==> IsWord(ws[i])
    ensures Words(Join(ws)) == ws
    decreases |ws|
  {
    if |ws| == 1 {
      var w := ws[0];
      assert IsWord(w);
      assert RunLength(w, NotSpace) == |w|;
      assert w[..|w|] == w && w[|w|..] == [];
    } else if |ws| > 1 {
      var w, j := ws[0], Join(ws[1..]);
      var r := w + " " + j;
      assert IsWord(w);
      assert r[|w|] == ' ';
      assert RunLength(r, NotSpace) == |w|;
      assert r[..|w|] == w;
      assert r[|w|..] == " " + j;
      assert (" " + j)[1..] == j;
      WordsOfJoin(ws[1..]);
      assert ws == [w] + ws[1..];
    }
  }

  /** A suffix of a clean text that starts at a word character is clean. */
  lemma CleanSuffix(r: string, k: nat)
    requires IsClean(r) && k < |r| && !IsSpace(r[k])
    ensures IsClean(r[k..])
  {
    var rest := r[k..];
    forall i | 0 <= i < |rest| - 1
      ensures !AdjacentIn(rest, i, IsSpace)
    {
      assert !AdjacentIn(r, k + i, IsSpace);
      assert rest[i] == r[k + i] && rest[i + 1] == r[k + i + 1];
    }
    assert rest[|rest| - 1] == r[|r| - 1];
  }

  /** A clean text is the single-space join of its own words. */
  lemma {:induction false} CleanIsJoinOfItsWords(r: string)
    requires IsClean(r)
    ensures r == Join(Words(r))
    decreases |r|
  {
    if r == [] {
      return;
    }
    var w, rest := SplitWord(r);
    if rest == [] {
      assert r == w;
      assert Words(r) == [w];
    } else {
      var rest' := CleanAfterWord(r, w, rest);
      CleanIsJoinOfItsWords(rest');
      JoinAfterWord(w, Words(rest'));
      assert Words(r) == [w] + Words(rest');
      assert r == w + " " + rest';
    }
  }

  lemma JoinAfterWord(w: string, ws: seq<string>)
    requires ws != []
    ensures Join([w] + ws) == w + " " + Join(ws)
  {
    assert ([w] + ws)[0] == w && ([w] + ws)[1..] == ws;
  }

  /** In a clean text, a word that is not the last is followed by one space
      and a clean remainder. */
  lemma CleanAfterWord(r: string, w: string, rest: string) returns (rest': string)
    requires IsClean(r) && r == w + rest && IsWord(w)
    requires rest != [] && IsSpace(rest[0])
    ensures rest == " " + rest' && rest' != [] && !IsSpace(rest'[0])
    ensures IsClean(rest') && |rest'| < |r|
    ensures Words(rest) == Words(rest')
  {
    assert rest[0] == r[|w|] == ' ';
    assert |rest| > 1 && !IsSpace(rest[1]) by {
      assert r[|r| - 1] == rest[|rest| - 1];
      assert r[|w| + 1] == rest[1];
      assert !AdjacentIn(r, |w|, IsSpace);
    }
    rest' := rest[1..];
    assert rest' == r[|w| + 1..];
    CleanSuffix(r, |w| + 1);
  }

  /** `clean_text` is idempotent. */
  lemma CleanTextIdempotent(s: string)
    ensures CleanText(CleanText(s)) == CleanText(s)
  {
    var c := CleanText(s);
    CleanIsJoinOfItsWords(c);
    CleanTextIsJoinOfWords(c);
  }

  lemma {:induction false} KeptCharsAppend(a: string, b: string)
    ensures KeptChars(a + b) == KeptChars(a) + KeptChars(b)
    decreases |a|
  {
    if a != [] {
      KeptCharsAppend(a[1..], b);
      assert (a + b)[0] == a[0];
      assert (a + b)[1..] == a[1..] + b;
    } else {
      assert a + b == b;
    }
  }

  lemma {:induction false} KeptCharsDropRun(s: string)
    ensures KeptChars(DropRun(s, IsSpace)) == KeptChars(s)
    decreases |s|
  {
    if s != [] && IsSpace(s[0]) {
      KeptCharsDropRun(s[1..]);
      assert DropRun(s[1..], IsSpace) == DropRun(s, IsSpace);
    }
  }

  lemma {:induction false} KeptCharsTrimEnd(s: string)
    ensures KeptChars(TrimEnd(s)) == KeptChars(s)
    decreases |s|
  {
    if s != [] && IsSpace(s[|s| - 1]) {
      var last := [s[|s| - 1]];
      KeptCharsTrimEnd(s[..|s| - 1]);
      assert s == s[..|s| - 1] + last;
      KeptCharsAppend(s[..|s| - 1], last);
      assert KeptChars(last) == [];
    }
  }

  lemma {:induction false} KeptCharsCollapse(s: string)
    ensures KeptChars(Squeeze(s, IsSpace, ' ')) == KeptChars(s)
    decreases |s|
  {
    if s != [] {
      if IsSpace(s[0]) {
        var t := DropRun(s, IsSpace);
        KeptCharsCollapse(t);
        KeptCharsDropRun(s);
        var c := [' '] + Squeeze(t, IsSpace, ' ');
        assert c[1..] == Squeeze(t, IsSpace, ' ');
      } else {
        KeptCharsCollapse(s[1..]);
        assert ([s[0]] + Squeeze(s[1..], IsSpace, ' '))[1..] == Squeeze(s[1..], IsSpace, ' ');
      }
    }
  }

  lemma {:induction false} CleanTextKeepsChars(s: string)
    ensures KeptChars(Strip(Squeeze(Squeeze(s, IsSpace, ' '), IsLineBreak, '\n'))) == KeptChars(s)
  {
    LineBreakStepIsNoOp(s);
    var c := Squeeze(s, IsSpace, ' ');
    KeptCharsCollapse(s);
    KeptCharsDropRun(c);
    KeptCharsTrimEnd(DropRun(c, IsSpace));
  }
}

=== FILE: uploads.dfy ===
/** The upload filter of the web front end (`allowed_file` in app.py): a file
    is accepted when the text after its last dot, lower-cased, is one of the
    four allowed extensions. */
module Uploads {
  import opened Outcomes

  /** `ALLOWED_EXTENSIONS`. */
  const AllowedExtensions: set<string> := {"pdf", "png", "jpg", "jpeg"}

  /** `str.lower` on one character, for the ASCII letters. */
  function ToLower(c: char): char {
    if 'A' <= c <= 'Z' then (c as int - 'A' as int + 'a' as int) as char else c
  }

  function Lower(s: string): (r: string)
    ensures |r| == |s|
    ensures forall i :: 0 <= i < |s| ==> r[i] == ToLower(s[i])
  {
    seq(|s|, i requires 0 <= i < |s| => ToLower(s[i]))
  }

  lemma ToLowerKeepsDot(c: char)
    ensures ToLower(c) == '.' <==> c == '.'
  {
  }

  lemma ToLowerIdempotent(c: char)
    ensures ToLower(ToLower(c)) == ToLower(c)
  {
  }

  predicate HasDot(s: string) {
    exists i :: 0 <= i < |s| && s[i] == '.'
  }

  /** Index of the last `.` of `s`, if there is one. */
  function LastDot(s: string): (r: Option<nat>)
    ensures r.None? <==> !HasDot(s)
    ensures r.Some? ==> r.value < |s| && s[r.value] == '.'
    ensures r.Some? ==> forall j :: r.value < j < |s| ==> s[j] != '.'
  {
    if s == [] then None
    else if s[|s| - 1] == '.' then Some(|s| - 1)
    else
      var r := LastDot(s[..|s| - 1]);
      assert forall i :: 0 <= i < |s| - 1 ==> s[..|s| - 1][i] == s[i];
      r
  }

  /** `filename.rsplit('.', 1)[1]`: the text after the last dot. */
  function Extension(s: string): (e: string)
    requires HasDot(s)
    ensures |e| < |s| && e == s[|s| - |e|..]
    ensures s[|s| - |e| - 1] == '.'
    ensures forall j :: 0 <= j < |e| ==> e[j] != '.'
  {
    var e := s[LastDot(s).value + 1..];
    assert forall j :: 0 <= j < |e| ==> e[j] == s[LastDot(s).value + 1 + j];
    e
  }

  /** `allowed_file`. */
  predicate AllowedFile(filename: string) {
    HasDot(filename) && Lower(Extension(filename)) in AllowedExtensions
  }

  /** The last dot is the only dot with no dot after it. */
  lemma LastDotUnique(s: string, k: nat)
    requires k < |s| && s[k] == '.'
    requires forall j :: k < j < |s| ==> s[j] != '.'
    ensures HasDot(s) && LastDot(s) == Some(k)
  {
  }

  /** Reference: a file is allowed exactly when some dot is followed by a
      dot-free tail that lower-cases to an allowed extension. A name without
      any dot is rejected. */
  lemma {:induction false} AllowedFileIff(filename: string)
    ensures AllowedFile(filename) <==>
      exists i :: 0 <= i < |filename| && filename[i] == '.'
        && (forall j :: i < j < |filename| ==> filename[j] != '.')
        && Lower(filename[i + 1..]) in AllowedExtensions
    ensures !HasDot(filename) ==> !AllowedFile(filename)
  {
    forall i | 0 <= i < |filename| && filename[i] == '.'
        && (forall j :: i < j < |filename| ==> filename[j] != '.')
      ensures AllowedFile(filename) <==> Lower(filename[i + 1..]) in AllowedExtensions
    {
      LastDotUnique(filename, i);
    }
  }

  /** Only the final extension matters: whatever precedes the last dot
      (including another allowed-looking extension) has no effect. */
  lemma ExtensionDecides(stem: string, ext: string)
    requires forall j :: 0 <= j < |ext| ==> ext[j] != '.'
    ensures AllowedFile(stem + "." + ext) <==> Lower(ext) in AllowedExtensions
  {
    var f := stem + "." + ext;
    forall j | |stem| < j < |f|
      ensures f[j] != '.'
    {
      assert f[j] == ext[j - |stem| - 1];
    }
    LastDotUnique(f, |stem|);
    assert f[|stem| + 1..] == ext;
  }

  lemma {:induction false} LowerIdempotent(s: string)
    ensures Lower(Lower(s)) == Lower(s)
  {
    forall i | 0 <= i < |s|
      ensures Lower(Lower(s))[i] == Lower(s)[i]
    {
      ToLowerIdempotent(s[i]);
    }
  }

  /** Lower-casing turns no character into a dot and no dot into anything else. */
  lemma LowerSameDots(s: string)
    ensures forall i :: 0 <= i < |s| ==> (Lower(s)[i] == '.' <==> s[i] == '.')
  {
    forall i | 0 <= i < |s|
      ensures Lower(s)[i] == '.' <==> s[i] == '.'
    {
      ToLowerKeepsDot(s[i]);
    }
  }

  /** The comparison ignores case: lower-casing the extension never changes
      the verdict. Every name with a dot has this shape, its stem ending
      just before the last dot. */
  lemma AllowedFileIgnoresCase(stem: string, ext: string)
    requires forall j :: 0 <= j < |ext| ==> ext[j] != '.'
    ensures AllowedFile(stem + "." + Lower(ext)) <==> AllowedFile(stem + "." + ext)
  {
    LowerSameDots(ext);
    ExtensionDecides(stem, ext);
    ExtensionDecides(stem, Lower(ext));
    LowerIdempotent(ext);
  }

  /** An upper-case extension is accepted. */
  lemma UpperCaseAccepted()
    ensures AllowedFile("x.PNG")
  {
    assert "x.PNG" == "x" + "." + "PNG";
    ExtensionDecides("x", "PNG");
    assert Lower("PNG") == "png";
  }

  /** Mixed case is accepted too. */
  lemma MixedCaseAccepted()
    ensures AllowedFile("scan.JpEg")
  {
    assert "scan.JpEg" == "scan" + "." + "JpEg";
    ExtensionDecides("scan", "JpEg");
    assert Lower("JpEg") == "jpeg";
  }

  /** Earlier dots do not matter when the last extension is allowed. */
  lemma InnerDotAccepted()
    ensures AllowedFile("a.tar.jpg")
  {
    assert "a.tar.jpg" == "a.tar" + "." + "jpg";
    ExtensionDecides("a.tar", "jpg");
    assert Lower("jpg") == "jpg";
  }

  /** Names the filter rejects: an allowed-looking inner extension, an empty
      extension after a trailing dot, and names without a dot. */
  lemma RejectedExamples()
    ensures !AllowedFile("a.png.exe")
    ensures !AllowedFile("file.")
    ensures !AllowedFile("png")
    ensures !AllowedFile("")
  {
    assert !AllowedFile("a.png.exe") by {
      assert "a.png.exe" == "a.png" + "." + "exe";
      ExtensionDecides("a.png", "exe");
      assert Lower("exe") == "exe";
    }
    assert !AllowedFile("file.") by {
      assert "file." == "file" + "." + "";
      ExtensionDecides("file", "");
    }
    assert !HasDot("png") by {
      assert forall i :: 0 <= i < 3 ==> "png"[i] != '.';
    }
  }
}
